=== FILE: README.md ===
# AUDIO_PLAYER in Dafny

A model of `audio_player.py`, a MicroPython player for mono 8-bit unsigned
and 16-bit signed WAV files on STM32 boards. It writes samples one by one to
the DAC or to a PWM timer channel, or hands the whole file to a circular DMA
transfer in loop mode. Three pieces are modelled and proved:

- **Controller** (`AudioPlayer`). `AUDIO_PLAYER` is an immutable record
  (`ready`, `fstop`, `volume`, `adatawidth`, the open file, the constructor
  flags). `__init__`, `begin`, `play`, `stop`, `volume_up`, `volume_down`
  and `set_volume` are functions on it. Hardware actions come back as an
  `Effect` value.
- **Streaming loop** (`Streaming`, `Schedule`, `WaveSource`).
  - `_play8`/`_play16` are modelled as `Stream`. Each iteration of
    `for position in range(buffersize, total_frames, buffersize)` does four
    things: check `fstop`, `readframes(buffersize)`, `setpos(position)`,
    then convert and write every `buf[i]`.
  - `PlayStream` is the same loop written as a method with a while loop. It
    is proved equal to `Stream`.
  - The WAV file is a sequence of decoded samples plus a read cursor.
- **Sample scaling** (`Scaling`). The volume table `[49, 31, …, 1]` and the
  three conversions:
  - `buf[i] // d` (8-bit);
  - `2048 + s // (16 d)` (16-bit, DAC);
  - `128 + s // (128 d)` (16-bit, PWM).

  Python's `//` is floor division. For a positive divisor it is Dafny's `/`.

What the loop observes in each iteration is given as two functions of the
iteration number k (k = 1 for `position = buffersize`):
- `stopAt(k)`: the stop flag, checked before the buffer is read;
- `levelAt(k)`: the volume level, looked up after the read.

Both can change while the loop runs, and `Play` passes the observations it
is given in either mode. On a background thread, the caller can call `stop`
or a volume operation. On the caller's thread, an interrupt handler such as
a `pyb.ExtInt` or `Timer` callback can. A `play` that sees no stop and its
starting level throughout is called undisturbed (`Undisturbed`).

### Behaviour of the code worth knowing

- A file of exactly 2 × 2048 frames gets 2048 writes unless the first
  iteration sees the stop flag:
  `range(2048, 4096, 2048)` has one element (`ShortFilesAndTwoBuffers`).
- In a run that starts at frame 0, the run `begin` sets up,
  `setpos(position)` moves the cursor to the end of the chunk just read.
  That is where `readframes` already left it (`FreshStreamReads`).
- The inner loop indexes `buf[i]` for every `i < buffersize`. A short read
  therefore ends the loop with an `IndexError` (`WriteBuffer`, and the
  `IndexError` ending of `Stream`).
- `play` does not rewind the file. Take a file of more than 2048 frames and
  an undisturbed `play`. A second undisturbed `play` without `begin` starts
  reading where the first run left the cursor, just after the last buffer
  it played (`ReplayWithoutBegin`).
  - If the file is not a whole number of buffers, the second run writes the
    remaining frames and then fails with an `IndexError`
    (`StaleReplay`).
  - If it is, the second run plays the file's last buffer, and its `setpos` moves
    the cursor back to frame 2048. It then replays the buffers from there
    and ends exhausted (`WholeReplay`).
- The stop bound holds from any cursor (`StopHaltsOutput`). Resuming a
  stopped run by calling `play` again does not continue from where it
  stopped in order. The loop writes the buffer at the cursor the stopped
  run left, and its first `setpos` then moves the cursor to frame 2048
  (`FirstIteration`).
- In loop mode with PWM output, `self.dac` is still `None`. `play` and
  `stop` then fail with an `AttributeError` (`NoConverter`).

## Model

| member | source | states |
|---|---|---|
| Scaling.Divisor | audio_player.py:57 | every level's divisor lies in 1..49 and is 1 exactly at level 12, so no level divides by zero |
| Scaling.VolumesStrictlyDecreasing | audio_player.py:57 | the table has 13 entries and a higher level always has a strictly smaller divisor |
| Scaling.FloorDiv | audio_player.py:137 | `a // d` for positive d is the unique q with d·q ≤ a < d·q + d |
| Scaling.FloorDivMonotone | audio_player.py:156 | floor division by a fixed divisor is monotone in the sample |
| Scaling.FloorDivAntitone | audio_player.py:133-134 | a larger divisor moves a quotient towards zero from either side and never changes its sign |
| Scaling.LouderNeverShrinks | audio_player.py:133-134 | at a higher volume level, the scaled sample is never closer to zero, whatever the extra factor of the path |
| Scaling.Scale8 | audio_player.py:154-156 | an unsigned byte divided by the level's divisor stays in 0..s, so in 0..255, and is unchanged at level 12 |
| Scaling.Int16Quotient | audio_player.py:131-134 | a signed 16-bit sample divided by any divisor of at least k lies between the extreme quotients by k |
| Scaling.Dac16 | audio_player.py:134-140 | the 16-bit DAC value lies in 0..4095 for every signed 16-bit sample and every level |
| Scaling.Pwm16 | audio_player.py:134-137 | the 16-bit PWM value lies in -128..383 in general, and in 0..255 for levels 0..11 |
| Scaling.Pwm16LoudestOverflows | audio_player.py:137 | at level 12 the extreme samples give 383 and -128, outside the timer's period of 255 |
| WaveSource.ReadFrames | audio_player.py:130 | `readframes(n)` returns min(n, remaining) frames in file order from the cursor and advances the cursor by that count; it is short only at the end of the file |
| WaveSource.SetPos | audio_player.py:132 | `setpos` puts the cursor at the given frame and keeps the frames |
| WaveSource.ReadFramesSplit | audio_player.py:151 | reading a frames then b frames is the same as reading a + b frames |
| WaveSource.ReadToEnd | audio_player.py:89 | `readframes(total_frames)` returns everything from the cursor on and leaves the cursor at the end |
| Schedule.Range | audio_player.py:127 | Python's `range(start, stop, step)`: ⌈(stop − start)/step⌉ elements when start < stop (none otherwise), the i-th being start + i·step |
| Schedule.ChunkCount | audio_player.py:148 | the loop runs 0 iterations when total ≤ B and (total − 1) div B otherwise; this is the length of `range(B, total, B)` |
| Schedule.ChunkPositions | audio_player.py:127 | iteration k runs at position k·B |
| Schedule.ChunkStarts | audio_player.py:127 | iteration k ≥ 1 runs if and only if k·B < total_frames |
| Schedule.FramesPlayed | audio_player.py:127 | the full iterations cover count·B ≤ total frames; a non-empty file always keeps 1..B frames unplayed |
| Schedule.WholeBuffersLoseOne | audio_player.py:148 | a file of exactly n+1 buffers plays n of them |
| Streaming.ConvertInRange | audio_player.py:137-140 | valid samples convert into the device's range (0..255 for 8-bit and PWM, 0..4095 for the 12-bit DAC), except 16-bit PWM at level 12 |
| Streaming.ConvertLouder | audio_player.py:154-156 | on every path, a higher volume level never brings the written value closer to the offset the path adds. On the 16-bit paths that offset is the silent centre (2048 or 128); on the 8-bit path it is 0, so there a higher level never makes the value smaller |
| Streaming.StreamFrom | audio_player.py:127-141 | a run of the loop leaves the file's frames untouched and its cursor in range |
| Streaming.Stream | audio_player.py:148-161 | the loop from `position = buffersize` leaves the file's frames untouched and its cursor in range |
| Streaming.Played | audio_player.py:128-129 | counts the iterations from k that run before the first one that sees the stop flag: none of them sees it, and the next one does unless the range ended |
| Streaming.FreshStream | audio_player.py:127-132 | from a freshly opened file the loop plays exactly the whole buffers before the stop flag is first seen; it ends stopped if iterations were left and exhausted otherwise, and a non-empty file always keeps unplayed frames |
| Streaming.FreshStreamWrites | audio_player.py:133-141 | the values written are frames 0, 1, 2, … in order, frame i converted at the level looked up in its chunk i div B + 1 |
| Streaming.FreshStreamReads | audio_player.py:151-153 | read j starts at frame j·B and returns a full buffer; every read stays inside the file; every `setpos` goes to where the read ended |
| Streaming.UninterruptedStream | audio_player.py:148 | without a stop, the loop writes count·B ≤ total_frames values and ends exhausted |
| Streaming.StaleReplay | audio_player.py:127-137 | after an uninterrupted fresh run the cursor sits at count·B; a second run from there, on a file of more than B frames that is not a whole number of buffers, converts exactly the frames from count·B on (between 1 and B − 1 of them) and ends in an `IndexError` |
| Streaming.WholeReplay | audio_player.py:127-137 | for a file of n ≥ 2 whole buffers, a second uninterrupted run from where the first left the cursor (count·B = total − B) first reads the last buffer and seeks back to B. It writes that buffer converted at the first level, then frames B .. total − B − 1 in order, each at its own iteration's level. It ends exhausted with the cursor back at total − B |
| Streaming.NeverStopped | audio_player.py:149-150 | without a stop, every iteration from k to the last one is played |
| Streaming.StopBoundsWrites | audio_player.py:148-150 | from any cursor, starting at iteration k, a stop flag seen at iteration j ≥ k leaves at most (j − k)·B writes |
| Streaming.StopHaltsOutput | audio_player.py:148-150 | from any cursor, once `play`'s loop sees the stop flag at iteration j, at most the j − 1 buffers before it are written |
| Streaming.FirstIteration | audio_player.py:148-153 | from any cursor with a full buffer ahead and no stop at iteration 1, the first read is `ReadEvent(cursor, B, B, B)`: the loop writes the buffer at the cursor at the first level, then seeks to frame B whatever the cursor was |
| Streaming.StreamInRange | audio_player.py:137-141 | from any cursor, with valid samples every value written is one the device accepts, provided 16-bit PWM never runs at level 12 |
| Streaming.AlignedRun | audio_player.py:127-132 | from chunk k with the cursor at its start, the run plays whole buffers in file order up to the first stop or the end of the range |
| Streaming.WriteBuffer | audio_player.py:155-161 | the inner `for i in range(buffersize)` writes `buffersize` converted samples in order, and stops short exactly when the buffer holds fewer; what it writes equals `ConvertChunk`, the form `Stream` uses |
| Streaming.PlayStream | audio_player.py:145-161 | the loop written imperatively (stop check, read, `setpos`, inner writes) produces exactly the writes, reads, ending and cursor of `Stream` |
| AudioPlayer.Init | audio_player.py:43-59 | a new controller is valid, not ready, stopped, at level 10 (divisor 3), with the given flags |
| AudioPlayer.Begin | audio_player.py:62-81 | `begin` opens the file at frame 0, sets `adatawidth` to 12 exactly when samples are wider than one byte, becomes ready, and changes nothing else |
| AudioPlayer.Play | audio_player.py:84-102 | before `begin`, `play` changes nothing and touches no hardware. Otherwise it clears `fstop` and keeps everything else except the file. Loop mode hands the rest of the file to the circular transfer, or fails without a DAC. Otherwise it runs `_play16` exactly when `adatawidth` is 12, writing to PWM exactly in PWM mode |
| AudioPlayer.Stop | audio_player.py:116-120 | before `begin`, `stop` changes nothing. Otherwise it raises `fstop` and nothing else; the DAC is zeroed exactly in loop mode without PWM, and it fails exactly in loop mode with PWM |
| AudioPlayer.VolumeUp | audio_player.py:104-106 | raises the level by one below 12, leaves it at 12, changes nothing else and keeps the controller valid |
| AudioPlayer.VolumeDown | audio_player.py:108-110 | lowers the level by one above 0, leaves it at 0, changes nothing else and keeps the controller valid |
| AudioPlayer.SetVolume | audio_player.py:112-114 | a level in 0..12 is taken exactly; anything else leaves the controller unchanged |
| AudioPlayer.VolumeUpSaturates | audio_player.py:104-106 | n calls of `volume_up` reach min(12, level + n) and change nothing else |
| AudioPlayer.VolumeDownSaturates | audio_player.py:108-110 | n calls of `volume_down` reach max(0, level − n) and change nothing else |
| AudioPlayer.TwentyPresses | audio_player.py:104-110 | twenty presses from any level reach 12 going up and 0 going down |
| AudioPlayer.VolumeStepsUndo | audio_player.py:104-110 | below 12, `volume_down` undoes `volume_up`; above 0, the reverse |
| AudioPlayer.SetVolumeSticks | audio_player.py:112-114 | `set_volume(v)` is idempotent, and an out-of-range call after it keeps level v |
| AudioPlayer.Apply | audio_player.py:62-120 | every public operation keeps the controller valid, so for integer arguments `volumes[volume]` is always a valid index |
| AudioPlayer.Execute | audio_player.py:62-120 | any sequence of calls keeps the controller valid and produces one effect per call |
| AudioPlayer.NothingBeforeBegin | audio_player.py:85 | before `begin`, no sequence of other calls makes the controller ready or touches the hardware; only the volume can change |
| AudioPlayer.ReadyStays | audio_player.py:81 | once ready, the controller stays ready |
| AudioPlayer.BeginSelectsLoop | audio_player.py:93-102 | after `begin`, non-loop `play` streams with the 16-bit loop exactly when samples are wider than one byte |
| AudioPlayer.UndisturbedSession | audio_player.py:84-102 | on either thread, `begin` then an undisturbed `play` writes count·2048 ≤ total_frames values: frame i converted at the controller's volume, every value in the device's range for valid samples (except 16-bit PWM at level 12), ending exhausted |
| AudioPlayer.ShortFilesAndTwoBuffers | audio_player.py:53 | with the 2048-frame buffer, a file of at most 2048 frames writes nothing whatever the loop observes, and one of 4096 frames writes 2048 values unless the stop flag is seen at the first iteration |
| AudioPlayer.StoppedSession | audio_player.py:94-100 | on either thread, a stop seen at the start of chunk j leaves at most (j − 1)·2048 writes, each frame converted at the level looked up in its own chunk |
| AudioPlayer.ReplayWithoutBegin | audio_player.py:84-97 | for a file of more than 2048 frames and two undisturbed calls, `play` called twice after one `begin` does not rewind. The first call ends exhausted. If the file is not a whole number of buffers, the second call writes only the frames after the last whole buffer and ends in an `IndexError`. If it is, the second call writes the last buffer first, then frames 2048 on in order, all at the controller's level, and ends exhausted |

## Left out

- WAV parsing (`wave.open`, `getsampwidth`, `getnframes`, `getframerate`) is an external library. `begin` takes the sample width and the decoded samples instead, and `total_frames` is their count.
- Byte decoding: `array.array('B' | 'h', framedata)` is not modelled. Samples are integers, and their valid ranges appear as hypotheses (`IsByte`, `IsInt16`).
- Only mono files with a sample width of 1 or 2 bytes are modelled, with one integer per frame. `begin` (line 65) sends every width above 1 to `_play16`. There, `array.array('h', framedata)` (line 131) splits a 3- or 4-byte frame, or a multi-channel frame, into several 16-bit values. Those values then fill `buf`, so its indices no longer match frames. For such files the source's writes are not the `Convert(…, frames[i])` sequence the session lemmas state.
- Hardware peripherals are not modelled: `pyb.DAC`, `Timer`, the PWM channel and the DMA `write_timed` transfer. Their writes come back as values or `Effect`s.
- The PWM prescaler computed from `freq()` (line 68) depends on the board clock and is not modelled.
- The framerate, the per-sample period (lines 126 and 147) and `custom_delay`/`udelay` pacing involve floating point and real time. They are not modelled.
- `_thread` concurrency and interrupt handlers are not modelled. What the loop sees of `fstop` and `volume` is given as per-iteration observations in both modes. The controller `Play` returns is the one after the loop ends. Changes the other thread or a handler makes to the controller itself, and the `pthread` handle, are not modelled.
- Module-level instantiation and auto-play (lines 174-176) are not modelled. Neither are the `@micropython.native` decorators, nor the `pyb.`/`machine.` names used at lines 69 and 73 without an import. The model assumes `begin` completes.
- `framedata`, `filename`, `timer`, `pwm_out`, `dac` and `period` are not kept as fields. `pwm_out` is present exactly in PWM mode and is represented by the `pwmMode` flag.
- AudioPlayer.Play: its contract fixes the gating, the flags and the dispatch, but not the values written. UndisturbedSession and StoppedSession state those for a freshly opened file.
- Streaming.StreamFrom: its contract states only that the file is kept. The values written are stated by partner lemmas. FreshStreamWrites covers a run that starts at frame 0, the case after `begin`. From another cursor, StreamInRange, StopBoundsWrites, FirstIteration, StaleReplay, WholeReplay and PlayStream state them.
- AudioPlayer.SetVolume: takes an integer level only. Python's `set_volume(v)` is untyped, so a float such as 5.5 passes the guard `0 <= v <= 12` (line 113) and is stored. The next `self.volumes[self.volume]` (lines 133 and 154) then raises a `TypeError`. The model's `Valid` bound on the volume, and `Apply`'s, hold only for integer arguments.

=== FILE: arith.dfy ===
/** Small facts about integer multiplication and division used by the other modules. */
module Arith {

  /** Multiplying both sides by a non-negative factor keeps `<=`. */
  lemma MulMonotone(a: int, b: int, c: int)
    requires a <= b && c >= 0
    ensures a * c <= b * c
  {
  }

  /** One more row of `c`. */
  lemma MulSucc(a: int, c: int)
    ensures (a + 1) * c == a * c + c
  {
  }

  /** `x / d` is the only q with d*q <= x < d*q + d. */
  lemma DivUnique(x: int, d: int, q: int)
    requires d > 0 && d * q <= x < d * q + d
    ensures x / d == q
  {
    var r := x / d;
    assert d * r <= x < d * r + d;
    if r < q {
      MulMonotone(r + 1, q, d);
      assert false;
    } else if r > q {
      MulMonotone(q + 1, r, d);
      assert false;
    }
  }

  /** Removing one divisor from a numerator of at least that size removes one from the quotient. */
  lemma DivStep(x: int, d: int)
    requires d > 0 && x >= 0
    ensures x >= d ==> (x - d) / d + 1 == x / d
    ensures x < d ==> x / d == 0
  {
    if x >= d {
      var q := (x - d) / d;
      assert d * q <= x - d < d * q + d;
      DivUnique(x, d, q + 1);
    } else {
      DivUnique(x, d, 0);
    }
  }

  /** `c` whole divisors plus a remainder below the divisor: quotient `c`, remainder `r`. */
  lemma DivModRow(c: int, d: int, r: int)
    requires d > 0 && 0 <= r < d
    ensures (c * d + r) / d == c
    ensures (c * d + r) % d == r
  {
    DivUnique(c * d + r, d, c);
  }
}

=== FILE: player.dfy ===
/**
 The playback controller `AUDIO_PLAYER`: an immutable record of its state
 and one function per public operation. Opening the WAV file is given as its
 sample width and decoded samples; hardware side effects are returned as
 an `Effect` instead of being performed.
 */
module AudioPlayer {

  import opened Scaling
  import opened WaveSource
  import opened Schedule
  import opened Streaming

  datatype Option<T> = None | Some(value: T)

  /** The read-ahead buffer size, in frames, fixed by the constructor. */
  const BufferSize: nat := 2048

  /** What `wave.open` reports: bytes per sample and the decoded samples. */
  datatype Wave = Wave(sampleWidth: nat, frames: seq<int>)

  /**
   The controller's fields: the constructor's configuration flags, the open
   file, the sample width `adatawidth` (8 or 12), the `ready` and `fstop`
   flags and the volume level.
   */
  datatype Player = Player(pwmMode: bool, loop: bool, threading: bool,
                           file: Option<Source>, adatawidth: int,
                           ready: bool, volume: int, fstop: bool)

  /**
   The state every reachable controller is in: the volume indexes the
   divisor table, the width is one of the two `begin` chooses, and a file
   is open exactly once `begin` has run.
   */
  predicate Valid(p: Player) {
    && 0 <= p.volume <= 12
    && (p.adatawidth == 8 || p.adatawidth == 12)
    && (p.ready <==> p.file.Some?)
    && (p.file.Some? ==> p.file.value.Valid())
  }

  /** What an operation does to the hardware. */
  datatype Effect =
    | NoEffect
      /** `dac.write_timed(framedata, framerate, mode=DAC.CIRCULAR)` on the whole remaining file. */
    | Circular(buffer: seq<int>)
      /** Loop mode with PWM output reaches `self.dac`, which is still `None`: an `AttributeError`. */
    | NoConverter
      /** `dac.write(0)`: the circular transfer is silenced. */
    | Silence
      /** A run of the streaming loop, on the caller's thread or a new one. */
    | Streamed(threaded: bool, width: Width, backend: Backend, run: Run)

  datatype Outcome = Outcome(player: Player, effect: Effect)

  /** The constructor: not ready, stopped, volume level 10, 8-bit width, no file. */
  function Init(pwm: bool, loop: bool, thread: bool): (p: Player)
    ensures Valid(p) && !p.ready && p.fstop
    ensures p.volume == 10 && Divisor(p.volume) == 3
    ensures p.pwmMode == pwm && p.loop == loop && p.threading == thread
  {
    Player(pwm, loop, thread, None, 8, false, 10, true)
  }

  /** `begin`: opens the file at frame 0, chooses the width from the sample width, becomes ready. */
  function Begin(p: Player, wav: Wave): (q: Player)
    ensures Valid(p) ==> Valid(q)
    ensures q.ready && q.file == Some(Source(wav.frames, 0))
    ensures q.adatawidth == 12 <==> wav.sampleWidth > 1
    ensures q.adatawidth == 8 <==> wav.sampleWidth <= 1
    ensures q.(file := p.file, adatawidth := p.adatawidth, ready := p.ready) == p
  {
    p.(file := Some(Source(wav.frames, 0)),
       adatawidth := if wav.sampleWidth > 1 then 12 else 8,
       ready := true)
  }

  /** The loop `play` runs: `_play8` for width 8, `_play16` otherwise. */
  function WidthOf(adatawidth: int): Width {
    if adatawidth == 8 then Width8 else Width16
  }

  /** The write path: `pwm_out` exists exactly when `begin` ran in PWM mode. */
  function BackendOf(pwmMode: bool): Backend {
    if pwmMode then Pwm else Dac
  }

  /**
   `play`. The loop re-reads `fstop` and `volume` in every iteration, and
   either may change while it runs: on a background thread by the caller,
   on the caller's thread by an interrupt handler that calls `stop` or a
   volume operation. `stopAt` and `levelAt` give what the loop observes in
   each iteration, in both modes. The returned controller is the one after
   the loop has ended.
   */
  function Play(p: Player, stopAt: nat -> bool, levelAt: nat -> Level): (o: Outcome)
    requires Valid(p)
    ensures Valid(o.player)
    ensures !p.ready ==> o == Outcome(p, NoEffect)
    ensures p.ready ==> !o.player.fstop
    ensures o.player.(file := p.file, fstop := p.fstop) == p
    ensures p.ready && p.loop ==>
              && o.player.file.value.cursor == |p.file.value.frames|
              && o.player.file.value.frames == p.file.value.frames
              && (p.pwmMode <==> o.effect == NoConverter)
              && (!p.pwmMode <==> o.effect == Circular(p.file.value.frames[p.file.value.cursor..]))
    ensures p.ready && !p.loop ==>
              && o.effect.Streamed?
              && o.effect.threaded == p.threading
              && (o.effect.width == Width16 <==> p.adatawidth == 12)
              && (o.effect.backend == Pwm <==> p.pwmMode)
              && o.player.file == Some(o.effect.run.src)
  {
    if !p.ready then Outcome(p, NoEffect)
    else
      var src := p.file.value;
      var started := p.(fstop := false);
      if p.loop then
        var rd := ReadFrames(src, |src.frames|);
        ReadToEnd(src);
        var effect := if p.pwmMode then NoConverter else Circular(rd.chunk);
        Outcome(started.(file := Some(rd.after)), effect)
      else
        var width, backend := WidthOf(p.adatawidth), BackendOf(p.pwmMode);
        var run := Stream(src, BufferSize, width, backend, stopAt, levelAt);
        Outcome(started.(file := Some(run.src)), Streamed(p.threading, width, backend, run))
  }

  /** `stop`: raises the stop flag and, in loop mode, silences the circular transfer. */
  function Stop(p: Player): (o: Outcome)
    ensures Valid(p) ==> Valid(o.player)
    ensures !p.ready ==> o == Outcome(p, NoEffect)
    ensures p.ready ==> o.player.fstop
    ensures o.player.(fstop := p.fstop) == p
    ensures o.effect == Silence <==> p.ready && p.loop && !p.pwmMode
    ensures o.effect == NoConverter <==> p.ready && p.loop && p.pwmMode
  {
    if !p.ready then Outcome(p, NoEffect)
    else
      var effect := if !p.loop then NoEffect else if p.pwmMode then NoConverter else Silence;
      Outcome(p.(fstop := true), effect)
  }

  /** `volume_up`: one level louder, saturating at 12. */
  function VolumeUp(p: Player): (q: Player)
    ensures Valid(p) ==> Valid(q)
    ensures q.(volume := p.volume) == p
    ensures q.volume >= p.volume && q.volume <= p.volume + 1
    ensures q.volume == p.volume <==> p.volume >= 12
  {
    if p.volume < 12 then p.(volume := p.volume + 1) else p
  }

  /** `volume_down`: one level quieter, saturating at 0. */
  function VolumeDown(p: Player): (q: Player)
    ensures Valid(p) ==> Valid(q)
    ensures q.(volume := p.volume) == p
    ensures q.volume <= p.volume && q.volume >= p.volume - 1
    ensures q.volume == p.volume <==> p.volume <= 0
  {
    if p.volume > 0 then p.(volume := p.volume - 1) else p
  }

  /** `set_volume(v)`: takes a level in 0..12 and silently ignores anything else. */
  function SetVolume(p: Player, v: int): (q: Player)
    ensures Valid(p) ==> Valid(q)
    ensures q.(volume := p.volume) == p
    ensures 0 <= v <= 12 ==> q.volume == v
    ensures !(0 <= v <= 12) ==> q == p
  {
    if 0 <= v <= 12 then p.(volume := v) else p
  }

  /** `volume_up` called `n` times. */
  function VolumeUpTimes(p: Player, n: nat): Player
    decreases n
  {
    if n == 0 then p else VolumeUpTimes(VolumeUp(p), n - 1)
  }

  /** `volume_down` called `n` times. */
  function VolumeDownTimes(p: Player, n: nat): Player
    decreases n
  {
    if n == 0 then p else VolumeDownTimes(VolumeDown(p), n - 1)
  }

  function Min(a: int, b: int): int {
    if a <= b then a else b
  }

  function Max(a: int, b: int): int {
    if a >= b then a else b
  }

  /** Repeated `volume_up` climbs one level per call and stays at 12 once there. */
  lemma {:induction false} VolumeUpSaturates(p: Player, n: nat)
    requires Valid(p)
    ensures Valid(VolumeUpTimes(p, n))
    ensures VolumeUpTimes(p, n).volume == Min(12, p.volume + n)
    ensures VolumeUpTimes(p, n).(volume := p.volume) == p
    decreases n
  {
    if n > 0 {
      VolumeUpSaturates(VolumeUp(p), n - 1);
    }
  }

  /** Repeated `volume_down` falls one level per call and stays at 0 once there. */
  lemma {:induction false} VolumeDownSaturates(p: Player, n: nat)
    requires Valid(p)
    ensures Valid(VolumeDownTimes(p, n))
    ensures VolumeDownTimes(p, n).volume == Max(0, p.volume - n)
    ensures VolumeDownTimes(p, n).(volume := p.volume) == p
    decreases n
  {
    if n > 0 {
      VolumeDownSaturates(VolumeDown(p), n - 1);
    }
  }

  /** Twenty presses take any level to the loudest, or to the quietest. */
  lemma TwentyPresses(p: Player)
    requires Valid(p)
    ensures VolumeUpTimes(p, 20).volume == 12
    ensures VolumeDownTimes(p, 20).volume == 0
  {
    VolumeUpSaturates(p, 20);
    VolumeDownSaturates(p, 20);
  }

  /** Below the loudest level, `volume_down` undoes `volume_up`; above the quietest, the reverse. */
  lemma VolumeStepsUndo(p: Player)
    requires Valid(p)
    ensures p.volume < 12 ==> VolumeDown(VolumeUp(p)) == p
    ensures p.volume > 0 ==> VolumeUp(VolumeDown(p)) == p
  {
  }

  /**
   `set_volume` is idempotent, and an out-of-range request after it leaves
   the level it set: `set_volume(5)` then `set_volume(13)` keeps level 5.
   */
  lemma SetVolumeSticks(p: Player, v: int, w: int)
    requires 0 <= v <= 12 && !(0 <= w <= 12)
    ensures SetVolume(SetVolume(p, v), v) == SetVolume(p, v)
    ensures SetVolume(SetVolume(p, v), w).volume == v
  {
  }

  /** A call on the controller's public surface. */
  datatype Call =
    | BeginCall(wav: Wave)
    | PlayCall(stopAt: nat -> bool, levelAt: nat -> Level)
    | StopCall
    | VolumeUpCall
    | VolumeDownCall
    | SetVolumeCall(v: int)

  /** The controller and the hardware effects after a sequence of calls. */
  datatype Trace = Trace(player: Player, effects: seq<Effect>)

  /** One call. */
  function Apply(p: Player, c: Call): (o: Outcome)
    requires Valid(p)
    ensures Valid(o.player)
  {
    match c
    case BeginCall(wav) => Outcome(Begin(p, wav), NoEffect)
    case PlayCall(stopAt, levelAt) => Play(p, stopAt, levelAt)
    case StopCall => Stop(p)
    case VolumeUpCall => Outcome(VolumeUp(p), NoEffect)
    case VolumeDownCall => Outcome(VolumeDown(p), NoEffect)
    case SetVolumeCall(v) => Outcome(SetVolume(p, v), NoEffect)
  }

  /** A sequence of calls, in order. */
  function Execute(p: Player, calls: seq<Call>): (t: Trace)
    requires Valid(p)
    ensures Valid(t.player) && |t.effects| == |calls|
    decreases |calls|
  {
    if |calls| == 0 then Trace(p, [])
    else
      var o := Apply(p, calls[0]);
      var rest := Execute(o.player, calls[1..]);
      Trace(rest.player, [o.effect] + rest.effects)
  }

  /**
   Before `begin`, no call makes the controller ready and none reaches the
   hardware: `play` and `stop` are ignored, and only the volume can change.
   */
  lemma {:induction false} NothingBeforeBegin(p: Player, calls: seq<Call>)
    requires Valid(p) && !p.ready
    requires forall i :: 0 <= i < |calls| ==> !calls[i].BeginCall?
    ensures var t := Execute(p, calls);
            && !t.player.ready
            && t.player.(volume := p.volume) == p
            && forall e :: e in t.effects ==> e == NoEffect
    decreases |calls|
  {
    if |calls| > 0 {
      var o := Apply(p, calls[0]);
      NothingBeforeBegin(o.player, calls[1..]);
    }
  }

  /** Once ready, the controller stays ready whatever is called. */
  lemma {:induction false} ReadyStays(p: Player, calls: seq<Call>)
    requires Valid(p) && p.ready
    ensures Execute(p, calls).player.ready
    decreases |calls|
  {
    if |calls| > 0 {
      ReadyStays(Apply(p, calls[0]).player, calls[1..]);
    }
  }

  /** `begin` makes any controller ready and routes 2-byte samples to `_play16`. */
  lemma BeginSelectsLoop(p: Player, wav: Wave, stopAt: nat -> bool, levelAt: nat -> Level)
    requires Valid(p) && !p.loop
    ensures var q := Begin(p, wav);
            var o := Play(q, stopAt, levelAt);
            && o.effect.Streamed?
            && (o.effect.width == Width16 <==> wav.sampleWidth > 1)
  {
  }

  /**
   A `play` nobody disturbs: the loop never sees the stop flag and always
   sees the level the controller had when `play` was called.
   */
  ghost predicate Undisturbed(p: Player, stopAt: nat -> bool, levelAt: nat -> Level) {
    && (forall k :: !stopAt(k))
    && (forall k :: levelAt(k) == p.volume)
  }

  /**
   An undisturbed session, on either thread: `begin` then `play` streams
   every iteration of `range(2048, total_frames, 2048)`, converting each
   frame in file order at the controller's volume, and ends exhausted; with
   valid samples every value written is one the device accepts, except on
   the 16-bit PWM path at level 12.
   */
  lemma UndisturbedSession(p: Player, wav: Wave, stopAt: nat -> bool, levelAt: nat -> Level)
    requires Valid(p) && !p.loop && Undisturbed(p, stopAt, levelAt)
    ensures var q := Begin(p, wav);
            var o := Play(q, stopAt, levelAt);
            var width, backend := WidthOf(q.adatawidth), BackendOf(p.pwmMode);
            && o.effect.Streamed? && o.effect.threaded == p.threading
            && o.effect.run.ending == Exhausted
            && |o.effect.run.writes| == ChunkCount(|wav.frames|, BufferSize) * BufferSize
            && |o.effect.run.writes| <= |wav.frames|
            && (forall i :: 0 <= i < |o.effect.run.writes| ==>
                  o.effect.run.writes[i] == Convert(width, backend, p.volume, wav.frames[i]))
            && ((forall i :: 0 <= i < |wav.frames| ==> IsSample(width, wav.frames[i])) &&
                (width == Width16 && backend == Pwm ==> p.volume <= 11) ==>
                  forall x :: x in o.effect.run.writes ==> InDeviceRange(width, backend, x))
  {
    var q := Begin(p, wav);
    var src := q.file.value;
    var width, backend := WidthOf(q.adatawidth), BackendOf(p.pwmMode);
    UninterruptedStream(src, BufferSize, width, backend, stopAt, levelAt);
    FreshStreamWrites(src, BufferSize, width, backend, stopAt, levelAt);
    if (forall i :: 0 <= i < |wav.frames| ==> IsSample(width, wav.frames[i])) &&
       (width == Width16 && backend == Pwm ==> p.volume <= 11) {
      StreamInRange(src, BufferSize, width, backend, stopAt, levelAt, 1, BufferSize);
    }
  }

  /**
   The chunk schedule at the controller's buffer size: a file of at most
   2048 frames writes nothing, whatever happens during `play`, and one of
   exactly two buffers writes only the first unless the loop sees the stop
   flag before it.
   */
  lemma ShortFilesAndTwoBuffers(p: Player, wav: Wave, stopAt: nat -> bool, levelAt: nat -> Level)
    requires Valid(p) && !p.loop
    ensures var o := Play(Begin(p, wav), stopAt, levelAt);
            && (|wav.frames| <= BufferSize ==> o.effect.run.writes == [])
            && (|wav.frames| == 2 * BufferSize && !stopAt(1) ==> |o.effect.run.writes| == BufferSize)
  {
    var q := Begin(p, wav);
    var width, backend := WidthOf(q.adatawidth), BackendOf(p.pwmMode);
    FreshStream(q.file.value, BufferSize, width, backend, stopAt, levelAt);
    WholeBuffersLoseOne(1, BufferSize);
  }

  /**
   A `play` stopped mid-run, on either thread: once the loop sees the stop
   flag at the start of chunk j nothing of chunk j or later is written, and
   every frame that is written uses the volume level looked up for its own
   chunk.
   */
  lemma StoppedSession(p: Player, wav: Wave, stopAt: nat -> bool, levelAt: nat -> Level, j: nat)
    requires Valid(p) && !p.loop
    requires j >= 1 && stopAt(j)
    ensures var q := Begin(p, wav);
            var o := Play(q, stopAt, levelAt);
            var width, backend := WidthOf(q.adatawidth), BackendOf(p.pwmMode);
            && o.effect.Streamed? && o.effect.threaded == p.threading
            && |o.effect.run.writes| <= (j - 1) * BufferSize
            && |o.effect.run.writes| <= |wav.frames|
            && (forall i :: 0 <= i < |o.effect.run.writes| ==>
                  o.effect.run.writes[i] == Convert(width, backend, levelAt(i / BufferSize + 1), wav.frames[i]))
  {
    var q := Begin(p, wav);
    var src := q.file.value;
    var width, backend := WidthOf(q.adatawidth), BackendOf(p.pwmMode);
    StopHaltsOutput(src, BufferSize, width, backend, stopAt, levelAt, j);
    FreshStreamWrites(src, BufferSize, width, backend, stopAt, levelAt);
  }

  /**
   `play` twice after one `begin`, both undisturbed: the second call does
   not rewind the file, and reads on from just after the last buffer the
   first call played. If the file is not a whole number of buffers, the
   second call writes only the remaining frames and then fails with an
   `IndexError`. If it is, the second call plays the file's last buffer,
   seeks back to frame 2048 and replays the buffers from there, ending
   exhausted.
   */
  lemma ReplayWithoutBegin(p: Player, wav: Wave, stopAt: nat -> bool, levelAt: nat -> Level)
    requires Valid(p) && !p.loop && Undisturbed(p, stopAt, levelAt)
    requires |wav.frames| > BufferSize
    ensures var q := Begin(p, wav);
            var first := Play(q, stopAt, levelAt);
            var second := Play(first.player, stopAt, levelAt);
            var width, backend := WidthOf(q.adatawidth), BackendOf(p.pwmMode);
            var tail := ChunkCount(|wav.frames|, BufferSize) * BufferSize;
            && first.effect.Streamed? && first.effect.run.ending == Exhausted
            && second.effect.Streamed?
            && (|wav.frames| % BufferSize != 0 ==>
                  && second.effect.run.ending == IndexError
                  && 0 < |second.effect.run.writes| < BufferSize
                  && second.effect.run.writes == ConvertChunk(width, backend, p.volume, wav.frames[tail..]))
            && (|wav.frames| % BufferSize == 0 ==>
                  && second.effect.run.ending == Exhausted
                  && |second.effect.run.writes| == tail
                  && second.effect.run.writes[..BufferSize] == ConvertChunk(width, backend, p.volume, wav.frames[tail..])
                  && forall i :: BufferSize <= i < tail ==>
                       second.effect.run.writes[i] == Convert(width, backend, p.volume, wav.frames[i]))
  {
    var q := Begin(p, wav);
    var width, backend := WidthOf(q.adatawidth), BackendOf(p.pwmMode);
    UninterruptedStream(q.file.value, BufferSize, width, backend, stopAt, levelAt);
    assert levelAt(1) == p.volume;
    if |wav.frames| % BufferSize != 0 {
      StaleReplay(q.file.value, BufferSize, width, backend, stopAt, levelAt, stopAt, levelAt);
    } else {
      WholeReplay(q.file.value, BufferSize, width, backend, stopAt, levelAt, stopAt, levelAt);
    }
  }
}

=== FILE: scaling.dfy ===
/**
 Volume table and per-sample conversion of the player.

 A volume level is an index into a fixed table of attenuation divisors; a
 raw sample is divided (Python floor division) by the divisor of the current
 level; on the 16-bit paths the divisor is scaled further and the quotient
 is shifted to the silent centre of the output device's range.
 */
module Scaling {

  import opened Arith

  /** A volume level: a valid index into `Volumes`. */
  type Level = v: int | 0 <= v <= 12

  /** The attenuation divisors, quietest (index 0) to loudest (index 12). */
  const Volumes: seq<int> := [49, 31, 21, 15, 11, 9, 7, 6, 5, 4, 3, 2, 1]

  /** The divisor for a volume level. */
  function Divisor(v: Level): (d: int)
    ensures 1 <= d <= 49
    ensures d == 1 <==> v == 12
  {
    Volumes[v]
  }

  /** The table has one entry per level and is strictly decreasing. */
  lemma VolumesStrictlyDecreasing(i: Level, j: Level)
    requires i < j
    ensures |Volumes| == 13
    ensures Divisor(i) > Divisor(j)
  {
  }

  /** Python's `a // d` for a positive divisor: the largest q with d*q <= a. */
  function FloorDiv(a: int, d: int): (q: int)
    requires d > 0
    ensures d * q <= a < d * q + d
  {
    a / d
  }

  /** Floor division is monotone in its numerator. */
  lemma FloorDivMonotone(a1: int, a2: int, d: int)
    requires d > 0 && a1 <= a2
    ensures FloorDiv(a1, d) <= FloorDiv(a2, d)
  {
    var q1, q2 := FloorDiv(a1, d), FloorDiv(a2, d);
    if q1 > q2 {
      MulMonotone(q2 + 1, q1, d);
      assert false;
    }
  }

  /**
   A larger divisor never moves the quotient further from zero: it shrinks a
   non-negative quotient and raises a negative one towards -1.
   */
  lemma FloorDivAntitone(a: int, d1: int, d2: int)
    requires 0 < d1 <= d2
    ensures a >= 0 ==> 0 <= FloorDiv(a, d2) <= FloorDiv(a, d1)
    ensures a < 0 ==> FloorDiv(a, d1) <= FloorDiv(a, d2) < 0
  {
    var q1, q2 := FloorDiv(a, d1), FloorDiv(a, d2);
    if a >= 0 {
      if q2 < 0 {
        MulMonotone(q2 + 1, 0, d2);
        assert false;
      }
      MulMonotone(d1, d2, q2);
      if q2 > q1 {
        MulMonotone(q1 + 1, q2, d1);
        assert false;
      }
    } else {
      if q2 >= 0 {
        MulMonotone(0, q2, d2);
        assert false;
      }
      MulMonotone(q2 + 1, 0, d2 - d1);
      if q1 > q2 {
        MulMonotone(q2 + 1, q1, d1);
        assert false;
      }
    }
  }

  function Abs(x: int): (r: nat)
    ensures r == x || r == -x
  {
    if x < 0 then -x else x
  }

  /**
   Raising the volume level never brings the floor quotient of a sample
   closer to zero, whatever the extra scale factor of the output path.
   */
  lemma LouderNeverShrinks(s: int, scale: int, lo: Level, hi: Level)
    requires scale > 0 && lo <= hi
    ensures Abs(FloorDiv(s, Divisor(hi) * scale)) >= Abs(FloorDiv(s, Divisor(lo) * scale))
  {
    if lo < hi {
      VolumesStrictlyDecreasing(lo, hi);
    }
    MulMonotone(Divisor(hi), Divisor(lo), scale);
    MulMonotone(1, Divisor(hi), scale);
    FloorDivAntitone(s, Divisor(hi) * scale, Divisor(lo) * scale);
  }

  /** An unsigned 8-bit sample, as read from an array of type 'B'. */
  predicate IsByte(s: int) {
    0 <= s <= 255
  }

  /** A signed 16-bit sample, as read from an array of type 'h'. */
  predicate IsInt16(s: int) {
    -32768 <= s <= 32767
  }

  /** 8-bit path (audio_player.py line 156): the unsigned sample divided by the divisor. */
  function Scale8(s: int, v: Level): (r: int)
    ensures IsByte(s) ==> 0 <= r <= s
    ensures v == 12 ==> r == s
  {
    FloorDiv(s, Divisor(v))
  }

  /**
   A signed 16-bit sample divided by any divisor of at least `k` lands
   between the quotients of the extreme samples by `k`.
   */
  lemma Int16Quotient(s: int, d: int, k: int)
    requires 0 < k <= d
    ensures IsInt16(s) ==> FloorDiv(-32768, k) <= FloorDiv(s, d) <= FloorDiv(32767, k)
  {
    if IsInt16(s) {
      FloorDivMonotone(s, 32767, d);
      FloorDivMonotone(-32768, s, d);
      FloorDivAntitone(32767, k, d);
      FloorDivAntitone(-32768, k, d);
    }
  }

  /** 16-bit path to the 12-bit DAC (line 140): centred on 2048, divisor times 16. */
  function Dac16(s: int, v: Level): (r: int)
    ensures IsInt16(s) ==> 0 <= r <= 4095
  {
    var d := Divisor(v) * 16;
    Int16Quotient(s, d, 16);
    2048 + FloorDiv(s, d)
  }

  /** 16-bit path to the PWM channel (line 137): centred on 128, divisor times 128. */
  function Pwm16(s: int, v: Level): (r: int)
    ensures IsInt16(s) ==> -128 <= r <= 383
    ensures IsInt16(s) && v <= 11 ==> 0 <= r <= 255
  {
    var d := Divisor(v) * 128;
    Int16Quotient(s, d, 128);
    if v <= 11 then
      Int16Quotient(s, d, 256);
      128 + FloorDiv(s, d)
    else
      128 + FloorDiv(s, d)
  }

  /**
   At the loudest level the 16-bit PWM value leaves the timer's 0..255 duty
   range at both ends, so the level bound in `Pwm16`'s contract is needed.
   */
  lemma Pwm16LoudestOverflows()
    ensures Pwm16(32767, 12) == 383 && Pwm16(-32768, 12) == -128
  {
  }
}

=== FILE: schedule.dfy ===
/**
 The chunk schedule of the streaming loop,
 `for position in range(buffersize, total_frames, buffersize)`:
 which positions start an iteration and how many frames that plays.
 */
module Schedule {

  import opened Arith

  /** Python's `range(start, stop, step)` for a positive step. */
  function Range(start: int, stop: int, step: int): (r: seq<int>)
    requires step > 0
    ensures |r| == if start < stop then (stop - start - 1) / step + 1 else 0
    ensures forall i :: 0 <= i < |r| ==> r[i] == start + i * step
    decreases stop - start
  {
    if start >= stop then []
    else
      var rest := Range(start + step, stop, step);
      DivStep(stop - start - 1, step);
      [start] + rest
  }

  /**
   The number of iterations of the streaming loop: none when the file is no
   longer than one buffer, otherwise one per multiple of the buffer size
   strictly below the frame count.
   */
  function ChunkCount(total: nat, size: nat): (n: nat)
    requires size > 0
    ensures n == |Range(size, total, size)|
  {
    if total <= size then 0
    else
      DivStep(total - 1, size);
      (total - 1) / size
  }

  /** Iteration k (counting from 1) runs with `position` = k*size. */
  lemma ChunkPositions(total: nat, size: nat)
    requires size > 0
    ensures forall k :: 1 <= k <= ChunkCount(total, size) ==>
              Range(size, total, size)[k - 1] == k * size
  {
    var r := Range(size, total, size);
    forall k | 1 <= k <= ChunkCount(total, size)
      ensures r[k - 1] == k * size
    {
      assert r[k - 1] == size + (k - 1) * size;
    }
  }

  /** The loop starts chunk k (k >= 1) exactly when k*size is below the frame count. */
  lemma ChunkStarts(total: nat, size: nat, k: nat)
    requires size > 0 && k >= 1
    ensures k <= ChunkCount(total, size) <==> k * size < total
  {
    var n := ChunkCount(total, size);
    if total > size {
      assert size * n <= total - 1 < size * n + size;
      if k <= n {
        MulMonotone(k, n, size);
      } else {
        MulMonotone(n + 1, k, size);
      }
    } else {
      MulMonotone(1, k, size);
    }
  }

  /**
   The frames played are a whole number of buffers strictly below the frame
   count: the trailing 1..size frames are never played, even when the frame
   count is an exact multiple of the buffer size.
   */
  lemma FramesPlayed(total: nat, size: nat)
    requires size > 0
    ensures ChunkCount(total, size) * size <= total
    ensures total > 0 ==> 1 <= total - ChunkCount(total, size) * size <= size
  {
    var n := ChunkCount(total, size);
    if total > size {
      assert size * n <= total - 1 < size * n + size;
    } else if n != 0 {
      assert false;
    }
  }

  /** A file of exactly two buffers plays one buffer; one of n+1 buffers plays n. */
  lemma WholeBuffersLoseOne(n: nat, size: nat)
    requires size > 0
    ensures ChunkCount((n + 1) * size, size) == n
  {
    var total := (n + 1) * size;
    var c := ChunkCount(total, size);
    FramesPlayed(total, size);
    if c < n {
      MulMonotone(c + 1, n, size);
      assert false;
    } else if c > n {
      MulMonotone(n + 1, c, size);
      assert false;
    }
  }
}

=== FILE: streaming.dfy ===
/**
 The streaming loop of `_play8` and `_play16`: read one buffer of frames per
 iteration, re-seek the file, snapshot the volume and write every converted
 sample to the output device. The per-sample delay is left out; the stop
 flag and the volume level another execution context may change are given
 as what the loop observes in each iteration: the flag before the read,
 the level after it.
 */
module Streaming {

  import opened Arith
  import opened Scaling
  import opened WaveSource
  import opened Schedule

  /** Sample format chosen by `begin`: `adatawidth` 8 (one-byte samples) or 12. */
  datatype Width = Width8 | Width16

  /** The device the samples are written to: the PWM channel or the DAC. */
  datatype Backend = Dac | Pwm

  /** Conversion of one raw sample to the value written to the device. */
  function Convert(width: Width, backend: Backend, level: Level, s: int): int {
    match width
    case Width8 => Scale8(s, level)
    case Width16 => if backend == Pwm then Pwm16(s, level) else Dac16(s, level)
  }

  /**
   The offset each path adds to the scaled quotient: 0 on the 8-bit path,
   and the silent mid-scale value (128 or 2048) on the 16-bit paths.
   */
  function Centre(width: Width, backend: Backend): int {
    match width
    case Width8 => 0
    case Width16 => if backend == Pwm then 128 else 2048
  }

  /** The divisor scale of each path: 1, 16 for the DAC and 128 for PWM on the 16-bit path. */
  function PathScale(width: Width, backend: Backend): (k: int)
    ensures k > 0
  {
    match width
    case Width8 => 1
    case Width16 => if backend == Pwm then 128 else 16
  }

  /** A raw sample of the given format. */
  predicate IsSample(width: Width, s: int) {
    match width
    case Width8 => IsByte(s)
    case Width16 => IsInt16(s)
  }

  /**
   The values the device accepts: 0..4095 for the 12-bit DAC, 0..255 for the
   8-bit DAC and for the PWM timer of period 255.
   */
  predicate InDeviceRange(width: Width, backend: Backend, x: int) {
    if width == Width16 && backend == Dac then 0 <= x <= 4095 else 0 <= x <= 255
  }

  /**
   Every conversion is the path's offset plus the floor quotient of the sample by the
   level's divisor times the path scale.
   */
  lemma ConvertIsScaledQuotient(width: Width, backend: Backend, level: Level, s: int)
    ensures Convert(width, backend, level, s)
            == Centre(width, backend) + FloorDiv(s, Divisor(level) * PathScale(width, backend))
  {
  }

  /**
   A valid sample converts into the device's range, except on the 16-bit PWM
   path at the loudest level.
   */
  lemma ConvertInRange(width: Width, backend: Backend, level: Level, s: int)
    requires IsSample(width, s)
    requires width == Width16 && backend == Pwm ==> level <= 11
    ensures InDeviceRange(width, backend, Convert(width, backend, level, s))
  {
  }

  /**
   A higher volume level never brings a converted sample closer to its
   path's offset: on the 16-bit paths, the silent centre; on the 8-bit path,
   0, so there the value never gets smaller.
   */
  lemma ConvertLouder(width: Width, backend: Backend, s: int, lo: Level, hi: Level)
    requires lo <= hi
    ensures Abs(Convert(width, backend, hi, s) - Centre(width, backend))
            >= Abs(Convert(width, backend, lo, s) - Centre(width, backend))
  {
    ConvertIsScaledQuotient(width, backend, hi, s);
    ConvertIsScaledQuotient(width, backend, lo, s);
    LouderNeverShrinks(s, PathScale(width, backend), lo, hi);
  }

  /** The values written for one buffer, in order. */
  function ConvertChunk(width: Width, backend: Backend, level: Level, chunk: seq<int>): (out: seq<int>)
    ensures |out| == |chunk|
    ensures forall i :: 0 <= i < |chunk| ==> out[i] == Convert(width, backend, level, chunk[i])
  {
    seq(|chunk|, i requires 0 <= i < |chunk| => Convert(width, backend, level, chunk[i]))
  }

  /** How a streaming run ends: range exhausted, stop flag seen, or `buf[i]` past a short read. */
  datatype Ending = Exhausted | Stopped | IndexError

  /**
   One iteration's file access: the cursor `readframes` started at, the
   frames requested and returned, and the position passed to `setpos`.
   */
  datatype ReadEvent = ReadEvent(start: nat, requested: nat, got: nat, seekTo: nat)

  /** Everything a run does: values written, file accesses, how it ended, the file afterwards. */
  datatype Run = Run(writes: seq<int>, accesses: seq<ReadEvent>, ending: Ending, src: Source)

  /**
   The loop from iteration `k`, at `position`, on. `stopAt(k)` is the stop
   flag checked before iteration k reads its buffer, and `levelAt(k)` the
   volume level it looks up once the buffer is read.
   */
  function StreamFrom(src: Source, size: nat, width: Width, backend: Backend,
                      stopAt: nat -> bool, levelAt: nat -> Level, k: nat, position: nat): (r: Run)
    requires size > 0 && src.Valid()
    ensures r.src.Valid() && r.src.frames == src.frames
    decreases |src.frames| - position
  {
    if position >= |src.frames| then Run([], [], Exhausted, src)
    else if stopAt(k) then Run([], [], Stopped, src)
    else
      var rd := ReadFrames(src, size);
      var synced := SetPos(rd.after, position);
      var event := ReadEvent(src.cursor, size, |rd.chunk|, position);
      var out := ConvertChunk(width, backend, levelAt(k), rd.chunk);
      if |rd.chunk| < size then Run(out, [event], IndexError, synced)
      else
        var rest := StreamFrom(synced, size, width, backend, stopAt, levelAt, k + 1, position + size);
        Run(out + rest.writes, [event] + rest.accesses, rest.ending, rest.src)
  }

  /**
   The whole loop: iteration k runs at position k*size of
   `range(size, total_frames, size)`, starting from the file's current cursor.
   */
  function Stream(src: Source, size: nat, width: Width, backend: Backend,
                  stopAt: nat -> bool, levelAt: nat -> Level): (r: Run)
    requires size > 0 && src.Valid()
    ensures r.src.Valid() && r.src.frames == src.frames
  {
    StreamFrom(src, size, width, backend, stopAt, levelAt, 1, size)
  }

  /**
   The number of iterations from `k` up to `last` that run before the first
   one that observes the stop flag.
   */
  function Played(stopAt: nat -> bool, k: nat, last: nat): (n: nat)
    ensures k <= last + 1 ==> k + n <= last + 1
    ensures k > last + 1 ==> n == 0
    ensures forall j :: k <= j < k + n ==> !stopAt(j)
    ensures k + n <= last ==> stopAt(k + n)
    decreases last + 1 - k
  {
    if k > last then 0
    else if stopAt(k) then 0
    else 1 + Played(stopAt, k + 1, last)
  }

  /**
   `writes` are the frames from `base` on, in file order, each converted at
   the level of the iteration (counting from `k`) whose buffer holds it.
   */
  ghost predicate PlaysFrom(writes: seq<int>, frames: seq<int>, base: nat, size: nat, k: nat,
                            width: Width, backend: Backend, levelAt: nat -> Level)
    requires size > 0
  {
    && base + |writes| <= |frames|
    && forall i :: 0 <= i < |writes| ==>
         writes[i] == Convert(width, backend, levelAt(k + i / size), frames[base + i])
  }

  /** `accesses` are full-buffer reads at consecutive buffers from `base` on, each re-seeking to its own end. */
  ghost predicate ReadsFrom(accesses: seq<ReadEvent>, base: nat, size: nat) {
    forall j :: 0 <= j < |accesses| ==>
      accesses[j] == ReadEvent(base + j * size, size, size, base + j * size + size)
  }

  /** One buffer converted at iteration k's level, followed by what the later iterations play. */
  lemma PlaysFromStep(out: seq<int>, rest: seq<int>, frames: seq<int>, base: nat, size: nat, k: nat,
                      width: Width, backend: Backend, levelAt: nat -> Level)
    requires size > 0 && |out| == size && base + size <= |frames|
    requires forall i :: 0 <= i < size ==> out[i] == Convert(width, backend, levelAt(k), frames[base + i])
    requires PlaysFrom(rest, frames, base + size, size, k + 1, width, backend, levelAt)
    ensures PlaysFrom(out + rest, frames, base, size, k, width, backend, levelAt)
  {
    forall i | 0 <= i < |out + rest| {
      PlaysFromStepAt(out, rest, frames, base, size, k, width, backend, levelAt, i);
    }
  }

  /** Write `i` of `PlaysFromStep`'s combined sequence. */
  lemma PlaysFromStepAt(out: seq<int>, rest: seq<int>, frames: seq<int>, base: nat, size: nat, k: nat,
                        width: Width, backend: Backend, levelAt: nat -> Level, i: nat)
    requires size > 0 && |out| == size && base + size <= |frames|
    requires forall i :: 0 <= i < size ==> out[i] == Convert(width, backend, levelAt(k), frames[base + i])
    requires PlaysFrom(rest, frames, base + size, size, k + 1, width, backend, levelAt)
    requires i < |out + rest|
    ensures base + i < |frames| && (out + rest)[i] == Convert(width, backend, levelAt(k + i / size), frames[base + i])
  {
    if i < size {
      DivUnique(i, size, 0);
      assert (out + rest)[i] == out[i];
    } else {
      var j := i - size;
      var x := rest[j];
      LaterBuffer(i, size, j);
      var level := k + 1 + j / size;
      assert x == Convert(width, backend, levelAt(level), frames[base + size + j]);
      assert (out + rest)[i] == x;
    }
  }

  /** Offset `i` past the first buffer is offset `j` into the following ones, one buffer later. */
  lemma LaterBuffer(i: nat, size: nat, j: nat)
    requires size > 0 && i >= size && j == i - size
    ensures 1 + j / size == i / size
  {
    DivStep(i, size);
  }

  /** One full read at `base`, followed by the reads of the later iterations. */
  lemma ReadsFromStep(event: ReadEvent, rest: seq<ReadEvent>, base: nat, size: nat)
    requires event == ReadEvent(base, size, size, base + size)
    requires ReadsFrom(rest, base + size, size)
    ensures ReadsFrom([event] + rest, base, size)
  {
    var a := [event] + rest;
    forall j | 0 <= j < |a|
      ensures a[j] == ReadEvent(base + j * size, size, size, base + j * size + size)
    {
      if j > 0 {
        assert a[j] == rest[j - 1];
        MulSucc(j - 1, size);
      }
    }
  }

  /**
   `r` plays `n` whole buffers from `base` on, starting at iteration `k`:
   the writes, the file accesses, the ending (stopped when the range still
   had iterations left) and the final cursor.
   */
  ghost predicate PlaysBuffers(r: Run, frames: seq<int>, base: nat, size: nat, k: nat, n: nat, count: nat,
                               width: Width, backend: Backend, levelAt: nat -> Level)
    requires size > 0
  {
    && |r.writes| == n * size
    && PlaysFrom(r.writes, frames, base, size, k, width, backend, levelAt)
    && |r.accesses| == n
    && ReadsFrom(r.accesses, base, size)
    && r.ending == (if k + n <= count then Stopped else Exhausted)
    && r.src.cursor == base + n * size
  }

  /** One more whole buffer in front of a run that plays `m` buffers. */
  lemma PlaysBuffersStep(out: seq<int>, event: ReadEvent, rest: Run, frames: seq<int>,
                         base: nat, size: nat, k: nat, m: nat, n: nat, count: nat,
                         width: Width, backend: Backend, levelAt: nat -> Level)
    requires size > 0 && |out| == size && base + size <= |frames|
    requires forall i :: 0 <= i < size ==> out[i] == Convert(width, backend, levelAt(k), frames[base + i])
    requires event == ReadEvent(base, size, size, base + size) && n == m + 1
    requires PlaysBuffers(rest, frames, base + size, size, k + 1, m, count, width, backend, levelAt)
    ensures PlaysBuffers(Prepend(out, [event], rest), frames, base, size, k, n, count, width, backend, levelAt)
  {
    MulSucc(m, size);
    PlaysFromStep(out, rest.writes, frames, base, size, k, width, backend, levelAt);
    ReadsFromStep(event, rest.accesses, base, size);
  }

  /** The values written for a whole buffer read at the cursor are its frames, converted. */
  lemma ConvertedRead(src: Source, size: nat, rd: Read, width: Width, backend: Backend, level: Level, out: seq<int>)
    requires src.Valid() && rd == ReadFrames(src, size) && |rd.chunk| == size
    requires out == ConvertChunk(width, backend, level, rd.chunk)
    ensures src.cursor + size <= |src.frames|
    ensures forall i :: 0 <= i < size ==> out[i] == Convert(width, backend, level, src.frames[src.cursor + i])
  {
  }

  /** An iteration of the range that does not see the stop flag counts as played. */
  lemma PlayedStep(stopAt: nat -> bool, total: nat, size: nat, k: nat, k': nat, count: nat)
    requires size > 0 && k >= 1 && k * size < total && !stopAt(k) && k' == k + 1
    requires count == ChunkCount(total, size)
    ensures Played(stopAt, k, count) == Played(stopAt, k', count) + 1
  {
    ChunkStarts(total, size, k);
  }

  /**
   The inductive step of `AlignedRun`: iteration k plays the whole buffer
   at the cursor in front of what the later iterations play.
   */
  lemma AlignedStep(src: Source, size: nat, width: Width, backend: Backend,
                    stopAt: nat -> bool, levelAt: nat -> Level, k: nat, position: nat,
                    rd: Read, out: seq<int>, event: ReadEvent, rest: Run, k': nat)
    requires size > 0 && src.Valid() && k >= 1 && position == k * size && src.cursor + size == position
    requires position < |src.frames| && !stopAt(k) && k' == k + 1
    requires rd == ReadFrames(src, size) && out == ConvertChunk(width, backend, levelAt(k), rd.chunk)
    requires event == ReadEvent(src.cursor, size, size, position)
    requires var count := ChunkCount(|src.frames|, size);
             PlaysBuffers(rest, src.frames, position, size, k', Played(stopAt, k', count), count,
                          width, backend, levelAt)
    ensures var count := ChunkCount(|src.frames|, size);
            PlaysBuffers(Prepend(out, [event], rest), src.frames, src.cursor, size, k, Played(stopAt, k, count), count,
                         width, backend, levelAt)
  {
    var count := ChunkCount(|src.frames|, size);
    ConvertedRead(src, size, rd, width, backend, levelAt(k), out);
    var m, n := Played(stopAt, k', count), Played(stopAt, k, count);
    PlayedStep(stopAt, |src.frames|, size, k, k', count);
    PlaysBuffersStep(out, event, rest, src.frames, src.cursor, size, k, m, n, count, width, backend, levelAt);
  }

  /**
   Starting iteration `k` with the cursor at the start of chunk k, the run
   plays whole chunks in file order, each at the level observed when it
   started, until the stop flag or the end of the range.
   */
  lemma {:induction false} AlignedRun(src: Source, size: nat, width: Width, backend: Backend,
                                      stopAt: nat -> bool, levelAt: nat -> Level, k: nat, position: nat)
    requires size > 0 && src.Valid() && k >= 1 && position == k * size && src.cursor + size == position
    ensures var count := ChunkCount(|src.frames|, size);
            PlaysBuffers(StreamFrom(src, size, width, backend, stopAt, levelAt, k, position),
                         src.frames, src.cursor, size, k, Played(stopAt, k, count), count,
                         width, backend, levelAt)
    decreases |src.frames| - position
  {
    if position >= |src.frames| || stopAt(k) {
      ChunkStarts(|src.frames|, size, k);
      assert Played(stopAt, k, ChunkCount(|src.frames|, size)) == 0;
    } else {
      var rd := ReadFrames(src, size);
      var next := SetPos(rd.after, position);
      var out := ConvertChunk(width, backend, levelAt(k), rd.chunk);
      var event := ReadEvent(src.cursor, size, size, position);
      var k', position' := k + 1, position + size;
      MulSucc(k, size);
      AlignedRun(next, size, width, backend, stopAt, levelAt, k', position');
      var rest := StreamFrom(next, size, width, backend, stopAt, levelAt, k', position');
      FullUnfold(src, size, width, backend, stopAt, levelAt, k, position, rd, out, event, next, k', position');
      AlignedStep(src, size, width, backend, stopAt, levelAt, k, position, rd, out, event, rest, k');
    }
  }

  /** From a freshly opened file the run is `AlignedRun` from the first chunk. */
  lemma FreshPlays(src: Source, size: nat, width: Width, backend: Backend,
                   stopAt: nat -> bool, levelAt: nat -> Level)
    requires size > 0 && src.Valid() && src.cursor == 0
    ensures var count := ChunkCount(|src.frames|, size);
            PlaysBuffers(Stream(src, size, width, backend, stopAt, levelAt), src.frames, 0, size, 1,
                         Played(stopAt, 1, count), count, width, backend, levelAt)
  {
    AlignedRun(src, size, width, backend, stopAt, levelAt, 1, size);
  }

  /**
   Played from a freshly opened file, the loop plays the first `n` whole
   buffers, where `n` counts the iterations of
   `range(size, total_frames, size)` before the stop flag is first seen. It
   ends stopped if that leaves iterations unplayed and exhausted otherwise;
   a non-empty file always keeps at least one frame unplayed.
   */
  lemma FreshStream(src: Source, size: nat, width: Width, backend: Backend,
                    stopAt: nat -> bool, levelAt: nat -> Level)
    requires size > 0 && src.Valid() && src.cursor == 0
    ensures var r := Stream(src, size, width, backend, stopAt, levelAt);
            var count := ChunkCount(|src.frames|, size);
            var n := Played(stopAt, 1, count);
            && n <= count
            && |r.writes| == n * size
            && |r.accesses| == n
            && r.ending == (if n < count then Stopped else Exhausted)
            && (|src.frames| > 0 ==> |r.writes| < |src.frames|)
  {
    var count := ChunkCount(|src.frames|, size);
    var n := Played(stopAt, 1, count);
    FreshPlays(src, size, width, backend, stopAt, levelAt);
    FramesPlayed(|src.frames|, size);
    MulMonotone(n, count, size);
  }

  /** A fresh run writes the file's frames in order, each converted at the level of its own chunk. */
  lemma FreshStreamWrites(src: Source, size: nat, width: Width, backend: Backend,
                          stopAt: nat -> bool, levelAt: nat -> Level)
    requires size > 0 && src.Valid() && src.cursor == 0
    ensures var r := Stream(src, size, width, backend, stopAt, levelAt);
            && |r.writes| <= |src.frames|
            && forall i :: 0 <= i < |r.writes| ==>
                 r.writes[i] == Convert(width, backend, levelAt(i / size + 1), src.frames[i])
  {
    var r := Stream(src, size, width, backend, stopAt, levelAt);
    FreshPlays(src, size, width, backend, stopAt, levelAt);
    FreshWrites(r.writes, src.frames, size, width, backend, levelAt);
  }

  /**
   Each `readframes` of a fresh run starts where the previous one ended,
   returns a full buffer without reaching past the end of the file, and is
   followed by a `setpos` to where the cursor already is.
   */
  lemma FreshStreamReads(src: Source, size: nat, width: Width, backend: Backend,
                         stopAt: nat -> bool, levelAt: nat -> Level)
    requires size > 0 && src.Valid() && src.cursor == 0
    ensures var r := Stream(src, size, width, backend, stopAt, levelAt);
            && (forall j :: 0 <= j < |r.accesses| ==> r.accesses[j].start == j * size && r.accesses[j].got == size)
            && (forall e :: e in r.accesses ==> e.got == e.requested == size)
            && (forall e :: e in r.accesses ==> e.start + e.got == e.seekTo <= |src.frames|)
  {
    var r := Stream(src, size, width, backend, stopAt, levelAt);
    var count := ChunkCount(|src.frames|, size);
    FreshPlays(src, size, width, backend, stopAt, levelAt);
    FramesPlayed(|src.frames|, size);
    FreshReads(r.accesses, size, count, |src.frames|);
  }

  /** The writes of a fresh run, each at the level of the chunk `i / size + 1` that holds it. */
  lemma FreshWrites(writes: seq<int>, frames: seq<int>, size: nat,
                    width: Width, backend: Backend, levelAt: nat -> Level)
    requires size > 0 && PlaysFrom(writes, frames, 0, size, 1, width, backend, levelAt)
    ensures forall i :: 0 <= i < |writes| ==> writes[i] == Convert(width, backend, levelAt(i / size + 1), frames[i])
  {
    forall i | 0 <= i < |writes|
      ensures writes[i] == Convert(width, backend, levelAt(i / size + 1), frames[i])
    {
      assert writes[i] == Convert(width, backend, levelAt(1 + i / size), frames[0 + i]);
    }
  }

  /** The reads of a fresh run that played at most `count` buffers of a file holding more than that. */
  lemma FreshReads(accesses: seq<ReadEvent>, size: nat, count: nat, total: nat)
    requires size > 0 && ReadsFrom(accesses, 0, size) && |accesses| <= count && count * size <= total
    ensures forall j :: 0 <= j < |accesses| ==> accesses[j].start == j * size && accesses[j].got == size
    ensures forall e :: e in accesses ==> e.got == e.requested == size
    ensures forall e :: e in accesses ==> e.start + e.got == e.seekTo <= total
  {
    forall j | 0 <= j < |accesses|
      ensures accesses[j] == ReadEvent(j * size, size, size, (j + 1) * size)
      ensures (j + 1) * size <= total
    {
      assert accesses[j] == ReadEvent(0 + j * size, size, size, 0 + j * size + size);
      MulSucc(j, size);
      MulMonotone(j + 1, count, size);
    }
  }

  /** Left uninterrupted, a fresh run plays every iteration of the range and ends exhausted. */
  lemma UninterruptedStream(src: Source, size: nat, width: Width, backend: Backend,
                            stopAt: nat -> bool, levelAt: nat -> Level)
    requires size > 0 && src.Valid() && src.cursor == 0
    requires forall k :: !stopAt(k)
    ensures var r := Stream(src, size, width, backend, stopAt, levelAt);
            && |r.writes| == ChunkCount(|src.frames|, size) * size
            && |r.writes| <= |src.frames|
            && r.ending == Exhausted
  {
    var count := ChunkCount(|src.frames|, size);
    FreshStream(src, size, width, backend, stopAt, levelAt);
    NeverStopped(stopAt, 1, count);
    FramesPlayed(|src.frames|, size);
  }

  /**
   `play` again without `begin`: a fresh run left uninterrupted leaves the
   cursor at its last whole buffer, and the second run starts from there at
   the first position of the range again. When the file is not a whole
   number of buffers, the second run's first read returns only the tail of
   the file, which it writes before indexing past the short buffer.
   */
  lemma StaleReplay(src: Source, size: nat, width: Width, backend: Backend,
                    stopAt: nat -> bool, levelAt: nat -> Level,
                    stopAgain: nat -> bool, levelAgain: nat -> Level)
    requires size > 0 && src.Valid() && src.cursor == 0
    requires forall k :: !stopAt(k)
    requires |src.frames| > size && |src.frames| % size != 0
    requires !stopAgain(1)
    ensures var first := Stream(src, size, width, backend, stopAt, levelAt);
            var second := Stream(first.src, size, width, backend, stopAgain, levelAgain);
            && first.src.cursor == ChunkCount(|src.frames|, size) * size
            && second.ending == IndexError
            && 0 < |second.writes| < size
            && second.writes == ConvertChunk(width, backend, levelAgain(1), src.frames[first.src.cursor..])
  {
    var count := ChunkCount(|src.frames|, size);
    var first := Stream(src, size, width, backend, stopAt, levelAt);
    FreshPlays(src, size, width, backend, stopAt, levelAt);
    NeverStopped(stopAt, 1, count);
    FramesPlayed(|src.frames|, size);
    if |src.frames| == count * size + size {
      MulSucc(count, size);
      DivModRow(count + 1, size, 0);
      assert false;
    }
    var rd := ReadFrames(first.src, size);
    assert rd.chunk == src.frames[first.src.cursor..];
  }

  /**
   `play` again without `begin` on a file of n >= 2 whole buffers: the
   second run's first read returns the last buffer, and its `setpos` moves
   the cursor back to the end of the first buffer. The run then plays
   frames size .. total - size - 1 again, each at the level of its own
   iteration, and ends
   exhausted where the first run ended.
   */
  lemma WholeReplay(src: Source, size: nat, width: Width, backend: Backend,
                    stopAt: nat -> bool, levelAt: nat -> Level,
                    stopAgain: nat -> bool, levelAgain: nat -> Level)
    requires size > 0 && src.Valid() && src.cursor == 0
    requires forall k :: !stopAt(k)
    requires forall k :: !stopAgain(k)
    requires |src.frames| > size && |src.frames| % size == 0
    ensures var first := Stream(src, size, width, backend, stopAt, levelAt);
            var second := Stream(first.src, size, width, backend, stopAgain, levelAgain);
            var last := |src.frames| - size;
            && first.src.cursor == last
            && second.ending == Exhausted
            && second.src.cursor == last
            && |second.writes| == last
            && second.accesses[0] == ReadEvent(last, size, size, size)
            && second.writes[..size] == ConvertChunk(width, backend, levelAgain(1), src.frames[last..])
            && forall i :: size <= i < last ==>
                 second.writes[i] == Convert(width, backend, levelAgain(i / size + 1), src.frames[i])
  {
    var total := |src.frames|;
    var count := ChunkCount(total, size);
    var first := Stream(src, size, width, backend, stopAt, levelAt);
    FreshPlays(src, size, width, backend, stopAt, levelAt);
    NeverStopped(stopAt, 1, count);
    FramesPlayed(total, size);
    if total - count * size < size {
      DivModRow(count, size, total - count * size);
      assert false;
    }
    var last := total - size;
    assert first.src.cursor == last;
    var rd := ReadFrames(first.src, size);
    assert rd.chunk == src.frames[last..];
    var next := SetPos(rd.after, size);
    var event := ReadEvent(last, size, size, size);
    var out := ConvertChunk(width, backend, levelAgain(1), rd.chunk);
    FullUnfold(first.src, size, width, backend, stopAgain, levelAgain, 1, size, rd, out, event, next, 2, 2 * size);
    AlignedRun(next, size, width, backend, stopAgain, levelAgain, 2, 2 * size);
    NeverStopped(stopAgain, 2, count);
    var rest := StreamFrom(next, size, width, backend, stopAgain, levelAgain, 2, 2 * size);
    MulSucc(count - 1, size);
    ReplayedBuffers(out, rest.writes, src.frames, size, width, backend, levelAgain);
  }

  /** The writes after the first buffer of a replay are frames `size` on, at the level of their own iteration. */
  lemma ReplayedBuffers(out: seq<int>, rest: seq<int>, frames: seq<int>, size: nat,
                        width: Width, backend: Backend, levelAt: nat -> Level)
    requires size > 0 && |out| == size && PlaysFrom(rest, frames, size, size, 2, width, backend, levelAt)
    ensures forall i :: size <= i < size + |rest| ==>
              (out + rest)[i] == Convert(width, backend, levelAt(i / size + 1), frames[i])
  {
    forall i | size <= i < size + |rest|
      ensures (out + rest)[i] == Convert(width, backend, levelAt(i / size + 1), frames[i])
    {
      var x := rest[i - size];
      DivStep(i, size);
      assert x == Convert(width, backend, levelAt(2 + (i - size) / size), frames[size + (i - size)]);
    }
  }

  /** Without a stop, every iteration from `k` to `last` is played. */
  lemma {:induction false} NeverStopped(stopAt: nat -> bool, k: nat, last: nat)
    requires forall j :: !stopAt(j)
    ensures k <= last + 1 ==> Played(stopAt, k, last) == last + 1 - k
    decreases last + 1 - k
  {
    if k <= last {
      NeverStopped(stopAt, k + 1, last);
    }
  }

  /**
   From any cursor, once the stop flag is seen at iteration j, nothing of
   iteration j or later is written: starting at iteration k, the loop writes
   at most the j - k buffers before it.
   */
  lemma {:induction false} StopBoundsWrites(src: Source, size: nat, width: Width, backend: Backend,
                                            stopAt: nat -> bool, levelAt: nat -> Level,
                                            k: nat, position: nat, j: nat)
    requires size > 0 && src.Valid() && k <= j && stopAt(j)
    ensures |StreamFrom(src, size, width, backend, stopAt, levelAt, k, position).writes| <= (j - k) * size
    decreases |src.frames| - position
  {
    if position < |src.frames| && !stopAt(k) {
      var rd := ReadFrames(src, size);
      var next := SetPos(rd.after, position);
      var out := ConvertChunk(width, backend, levelAt(k), rd.chunk);
      var event := ReadEvent(src.cursor, size, |rd.chunk|, position);
      if |rd.chunk| >= size {
        StopBoundsWrites(next, size, width, backend, stopAt, levelAt, k + 1, position + size, j);
        StopStep(src, size, width, backend, stopAt, levelAt, k, position, j, rd, out, event, next);
      } else {
        ShortStop(src, size, width, backend, stopAt, levelAt, k, position, j, rd, out, event, next);
      }
    } else {
      MulMonotone(0, j - k, size);
    }
  }

  /** `StopBoundsWrites` for an iteration that reads a full buffer, given the bound for the rest of the run. */
  lemma StopStep(src: Source, size: nat, width: Width, backend: Backend,
                 stopAt: nat -> bool, levelAt: nat -> Level, k: nat, position: nat, j: nat,
                 rd: Read, out: seq<int>, event: ReadEvent, next: Source)
    requires size > 0 && src.Valid() && position < |src.frames| && !stopAt(k) && k < j
    requires rd == ReadFrames(src, size) && |rd.chunk| >= size
    requires out == ConvertChunk(width, backend, levelAt(k), rd.chunk)
    requires event == ReadEvent(src.cursor, size, |rd.chunk|, position)
    requires next == SetPos(rd.after, position)
    requires |StreamFrom(next, size, width, backend, stopAt, levelAt, k + 1, position + size).writes| <= (j - k - 1) * size
    ensures |StreamFrom(src, size, width, backend, stopAt, levelAt, k, position).writes| <= (j - k) * size
  {
    FullUnfold(src, size, width, backend, stopAt, levelAt, k, position, rd, out, event, next, k + 1, position + size);
    var rest := StreamFrom(next, size, width, backend, stopAt, levelAt, k + 1, position + size);
    OneMoreBuffer(|Prepend(out, [event], rest).writes|, |rest.writes|, size, j - k);
  }

  /** `StopBoundsWrites` for an iteration whose read comes back short: one partial buffer, then the error. */
  lemma ShortStop(src: Source, size: nat, width: Width, backend: Backend,
                  stopAt: nat -> bool, levelAt: nat -> Level, k: nat, position: nat, j: nat,
                  rd: Read, out: seq<int>, event: ReadEvent, next: Source)
    requires size > 0 && src.Valid() && position < |src.frames| && !stopAt(k) && k < j
    requires rd == ReadFrames(src, size) && |rd.chunk| < size
    requires out == ConvertChunk(width, backend, levelAt(k), rd.chunk)
    requires event == ReadEvent(src.cursor, size, |rd.chunk|, position)
    requires next == SetPos(rd.after, position)
    ensures |StreamFrom(src, size, width, backend, stopAt, levelAt, k, position).writes| <= (j - k) * size
  {
    var r := StreamFrom(src, size, width, backend, stopAt, levelAt, k, position);
    ShortIteration(Prepend([], [], r), [], [], src, size, width, backend, stopAt, levelAt, k, position,
                   rd, out, event, next, k + 1, position + size);
    PrependNone(r);
    MulMonotone(1, j - k, size);
  }

  /** A buffer followed by at most `m - 1` buffers is at most `m` buffers. */
  lemma OneMoreBuffer(total: nat, rest: nat, size: nat, m: nat)
    requires m >= 1 && total == size + rest && rest <= (m - 1) * size
    ensures total <= m * size
  {
    MulSucc(m - 1, size);
  }

  /**
   Whatever the cursor, once `play`'s loop sees the stop flag at the start of
   iteration j, at most the j - 1 buffers before it are written.
   */
  lemma StopHaltsOutput(src: Source, size: nat, width: Width, backend: Backend,
                        stopAt: nat -> bool, levelAt: nat -> Level, j: nat)
    requires size > 0 && src.Valid()
    requires j >= 1 && stopAt(j)
    ensures |Stream(src, size, width, backend, stopAt, levelAt).writes| <= (j - 1) * size
  {
    StopBoundsWrites(src, size, width, backend, stopAt, levelAt, 1, size, j);
  }

  /**
   The first iteration from any cursor with a full buffer ahead: it reads
   the buffer at the cursor, writes it at the first level, and seeks to
   frame `size` whatever the cursor was. A run resumed from a stopped or
   finished one therefore plays the buffer at its cursor and then jumps back
   to the second buffer of the file.
   */
  lemma FirstIteration(src: Source, size: nat, width: Width, backend: Backend,
                       stopAt: nat -> bool, levelAt: nat -> Level)
    requires size > 0 && src.Valid() && size < |src.frames| && !stopAt(1)
    requires src.cursor + size <= |src.frames|
    ensures var r := Stream(src, size, width, backend, stopAt, levelAt);
            && |r.accesses| >= 1
            && r.accesses[0] == ReadEvent(src.cursor, size, size, size)
            && |r.writes| >= size
            && r.writes[..size] == ConvertChunk(width, backend, levelAt(1), src.frames[src.cursor..src.cursor + size])
  {
    var rd := ReadFrames(src, size);
    assert rd.chunk == src.frames[src.cursor..src.cursor + size];
    var next := SetPos(rd.after, size);
    var out := ConvertChunk(width, backend, levelAt(1), rd.chunk);
    var event := ReadEvent(src.cursor, size, size, size);
    FullUnfold(src, size, width, backend, stopAt, levelAt, 1, size, rd, out, event, next, 2, 2 * size);
  }

  /**
   Whatever the cursor it starts from, a run writes only values the device
   accepts when the file holds valid samples, provided the 16-bit PWM path
   never runs at the loudest level.
   */
  lemma {:induction false} StreamInRange(src: Source, size: nat, width: Width, backend: Backend,
                                         stopAt: nat -> bool, levelAt: nat -> Level, k: nat, position: nat)
    requires size > 0 && src.Valid()
    requires forall i :: 0 <= i < |src.frames| ==> IsSample(width, src.frames[i])
    requires width == Width16 && backend == Pwm ==> forall j :: levelAt(j) <= 11
    ensures var r := StreamFrom(src, size, width, backend, stopAt, levelAt, k, position);
            forall x :: x in r.writes ==> InDeviceRange(width, backend, x)
    decreases |src.frames| - position
  {
    if position < |src.frames| && !stopAt(k) {
      var rd := ReadFrames(src, size);
      var synced := SetPos(rd.after, position);
      var out := ConvertChunk(width, backend, levelAt(k), rd.chunk);
      forall i | 0 <= i < |out|
        ensures InDeviceRange(width, backend, out[i])
      {
        ConvertInRange(width, backend, levelAt(k), rd.chunk[i]);
      }
      if |rd.chunk| == size {
        StreamInRange(synced, size, width, backend, stopAt, levelAt, k + 1, position + size);
      }
    }
  }

  /** A run prefixed by values already written and accesses already made. */
  function Prepend(writes: seq<int>, accesses: seq<ReadEvent>, r: Run): Run {
    Run(writes + r.writes, accesses + r.accesses, r.ending, r.src)
  }

  /**
   The inner loop `for i in range(size)`: converts and writes `buf[i]` in
   order, and stops short (the `IndexError`) when the buffer holds fewer
   than `size` samples.
   */
  method WriteBuffer(width: Width, backend: Backend, level: Level, buf: seq<int>, size: nat)
    returns (out: seq<int>, complete: bool)
    ensures complete <==> |buf| >= size
    ensures |out| == if complete then size else |buf|
    ensures forall i :: 0 <= i < |out| ==> out[i] == Convert(width, backend, level, buf[i])
  {
    out := [];
    var i := 0;
    while i < size
      invariant 0 <= i <= size && i <= |buf|
      invariant |out| == i
      invariant forall j :: 0 <= j < i ==> out[j] == Convert(width, backend, level, buf[j])
    {
      if i >= |buf| {
        return out, false;
      }
      out := out + [Convert(width, backend, level, buf[i])];
      i := i + 1;
    }
    complete := true;
  }

  /** A run that does nothing more, after what was already written and read. */
  lemma PrependNothing(writes: seq<int>, accesses: seq<ReadEvent>, ending: Ending, file: Source)
    ensures Prepend(writes, accesses, Run([], [], ending, file)) == Run(writes, accesses, ending, file)
  {
    assert writes + [] == writes && accesses + [] == accesses;
  }

  /** Nothing written or read yet. */
  lemma PrependNone(r: Run)
    ensures Prepend([], [], r) == r
  {
    assert [] + r.writes == r.writes && [] + r.accesses == r.accesses;
  }

  /** Prefixes accumulate: one more buffer written and one more read made. */
  lemma PrependTwice(writes: seq<int>, accesses: seq<ReadEvent>, out: seq<int>, event: ReadEvent, rest: Run)
    ensures Prepend(writes, accesses, Prepend(out, [event], rest)) == Prepend(writes + out, accesses + [event], rest)
  {
    assert writes + (out + rest.writes) == (writes + out) + rest.writes;
    assert accesses + ([event] + rest.accesses) == (accesses + [event]) + rest.accesses;
  }

  /** A sequence equal pointwise to the conversion of a chunk is its conversion. */
  lemma ChunkIsConverted(width: Width, backend: Backend, level: Level, chunk: seq<int>, out: seq<int>)
    requires |out| == |chunk|
    requires forall i :: 0 <= i < |out| ==> out[i] == Convert(width, backend, level, chunk[i])
    ensures out == ConvertChunk(width, backend, level, chunk)
  {
  }

  /** One unfolding of `StreamFrom` at an iteration that reads a whole buffer. */
  lemma FullUnfold(src: Source, size: nat, width: Width, backend: Backend,
                   stopAt: nat -> bool, levelAt: nat -> Level, k: nat, position: nat,
                   rd: Read, out: seq<int>, event: ReadEvent, synced: Source, k': nat, position': nat)
    requires size > 0 && src.Valid() && position < |src.frames| && !stopAt(k)
    requires rd == ReadFrames(src, size) && |rd.chunk| >= size
    requires out == ConvertChunk(width, backend, levelAt(k), rd.chunk)
    requires event == ReadEvent(src.cursor, size, |rd.chunk|, position)
    requires synced == SetPos(rd.after, position)
    requires k' == k + 1 && position' == position + size
    ensures StreamFrom(src, size, width, backend, stopAt, levelAt, k, position)
            == Prepend(out, [event], StreamFrom(synced, size, width, backend, stopAt, levelAt, k', position'))
  {
  }

  /** An iteration whose read comes back short ends the loop with the `IndexError`. */
  lemma ShortIteration(goal: Run, writes: seq<int>, accesses: seq<ReadEvent>,
                       src: Source, size: nat, width: Width, backend: Backend,
                       stopAt: nat -> bool, levelAt: nat -> Level, k: nat, position: nat,
                       rd: Read, out: seq<int>, event: ReadEvent, synced: Source, k': nat, position': nat)
    requires size > 0 && src.Valid() && position < |src.frames| && !stopAt(k)
    requires goal == Prepend(writes, accesses, StreamFrom(src, size, width, backend, stopAt, levelAt, k, position))
    requires rd == ReadFrames(src, size)
    requires out == ConvertChunk(width, backend, levelAt(k), rd.chunk)
    requires event == ReadEvent(src.cursor, size, |rd.chunk|, position)
    requires synced == SetPos(rd.after, position)
    requires k' == k + 1 && position' == position + size
    requires |rd.chunk| < size
    ensures goal == Run(writes + out, accesses + [event], IndexError, synced)
  {
    assert StreamFrom(src, size, width, backend, stopAt, levelAt, k, position) == Run(out, [event], IndexError, synced);
  }

  /** An iteration that reads a whole buffer is followed by the rest of the loop. */
  lemma FullIteration(goal: Run, writes: seq<int>, accesses: seq<ReadEvent>,
                      src: Source, size: nat, width: Width, backend: Backend,
                      stopAt: nat -> bool, levelAt: nat -> Level, k: nat, position: nat,
                      rd: Read, out: seq<int>, event: ReadEvent, synced: Source, k': nat, position': nat)
    requires size > 0 && src.Valid() && position < |src.frames| && !stopAt(k)
    requires goal == Prepend(writes, accesses, StreamFrom(src, size, width, backend, stopAt, levelAt, k, position))
    requires rd == ReadFrames(src, size)
    requires out == ConvertChunk(width, backend, levelAt(k), rd.chunk)
    requires event == ReadEvent(src.cursor, size, |rd.chunk|, position)
    requires synced == SetPos(rd.after, position)
    requires k' == k + 1 && position' == position + size
    requires |rd.chunk| >= size
    ensures goal == Prepend(writes + out, accesses + [event],
                            StreamFrom(synced, size, width, backend, stopAt, levelAt, k', position'))
  {
    FullUnfold(src, size, width, backend, stopAt, levelAt, k, position, rd, out, event, synced, k', position');
    PrependTwice(writes, accesses, out, event,
                 StreamFrom(synced, size, width, backend, stopAt, levelAt, k', position'));
  }

  /**
   The loop as the source writes it: `position` steps through
   `range(size, total_frames, size)`, the stop flag is checked before each
   read, and `buf[i]` is indexed for every i below the buffer size.
   */
  method PlayStream(src: Source, size: nat, width: Width, backend: Backend,
                    stopAt: nat -> bool, levelAt: nat -> Level)
    returns (writes: seq<int>, accesses: seq<ReadEvent>, ending: Ending, file: Source)
    requires size > 0 && src.Valid()
    ensures Run(writes, accesses, ending, file) == Stream(src, size, width, backend, stopAt, levelAt)
  {
    ghost var goal := Stream(src, size, width, backend, stopAt, levelAt);
    file := src;
    writes, accesses := [], [];
    var position: nat, k: nat := size, 1;
    PrependNone(goal);
    while position < |file.frames|
      invariant file.Valid() && file.frames == src.frames
      invariant goal == Prepend(writes, accesses, StreamFrom(file, size, width, backend, stopAt, levelAt, k, position))
      decreases |file.frames| - position
    {
      if stopAt(k) {
        ending := Stopped;
        PrependNothing(writes, accesses, ending, file);
        return;
      }
      ghost var fileBefore := file;
      var rd := ReadFrames(file, size);
      var event := ReadEvent(file.cursor, size, |rd.chunk|, position);
      file := SetPos(rd.after, position);
      var out, complete := WriteBuffer(width, backend, levelAt(k), rd.chunk, size);
      var nextPosition, nextK := position + size, k + 1;
      ChunkIsConverted(width, backend, levelAt(k), rd.chunk, out);
      if !complete {
        ShortIteration(goal, writes, accesses, fileBefore, size, width, backend, stopAt, levelAt, k, position,
                       rd, out, event, file, nextK, nextPosition);
        writes, accesses := writes + out, accesses + [event];
        ending := IndexError;
        return;
      }
      FullIteration(goal, writes, accesses, fileBefore, size, width, backend, stopAt, levelAt, k, position,
                    rd, out, event, file, nextK, nextPosition);
      writes, accesses := writes + out, accesses + [event];
      position, k := nextPosition, nextK;
    }
    ending := Exhausted;
    PrependNothing(writes, accesses, ending, file);
  }
}

=== FILE: wave_source.dfy ===
/**
 The sample source the player streams from: the decoded frames of a mono
 WAVE file plus the read cursor of the file object. Only the two calls the
 streaming loop makes are modelled, `readframes` and `setpos`; parsing the
 container is outside the model.
 */
module WaveSource {

  /** The frames of the file (one sample each, mono) and the current cursor. */
  datatype Source = Source(frames: seq<int>, cursor: nat) {

    /** The cursor never passes the end of the file. */
    predicate Valid() {
      cursor <= |frames|
    }

    /** Number of frames left after the cursor. */
    function Remaining(): nat
      requires Valid()
    {
      |frames| - cursor
    }
  }

  /** The result of one `readframes` call: the frames read and the source after it. */
  datatype Read = Read(chunk: seq<int>, after: Source)

  /**
   `readframes(n)`: at most `n` frames from the cursor on, fewer only at the
   end of the file; the cursor advances past what was returned.
   */
  function ReadFrames(src: Source, n: nat): (r: Read)
    requires src.Valid()
    ensures r.after.Valid() && r.after.frames == src.frames
    ensures |r.chunk| <= n && |r.chunk| <= src.Remaining()
    ensures |r.chunk| < n ==> |r.chunk| == src.Remaining()
    ensures r.after.cursor == src.cursor + |r.chunk|
    ensures forall i :: 0 <= i < |r.chunk| ==> r.chunk[i] == src.frames[src.cursor + i]
  {
    var stop := if src.cursor + n <= |src.frames| then src.cursor + n else |src.frames|;
    Read(src.frames[src.cursor..stop], src.(cursor := stop))
  }

  /** `setpos(pos)`: the file object accepts any position up to the frame count. */
  function SetPos(src: Source, pos: nat): (r: Source)
    requires pos <= |src.frames|
    ensures r.Valid() && r.frames == src.frames && r.cursor == pos
  {
    src.(cursor := pos)
  }

  /** Two consecutive reads return the same frames as one read of their combined size. */
  lemma ReadFramesSplit(src: Source, a: nat, b: nat)
    requires src.Valid()
    ensures var first := ReadFrames(src, a);
            var second := ReadFrames(first.after, b);
            first.chunk + second.chunk == ReadFrames(src, a + b).chunk
            && second.after == ReadFrames(src, a + b).after
  {
  }

  /** A read of the whole file returns everything from the cursor on and leaves the cursor at the end. */
  lemma ReadToEnd(src: Source)
    requires src.Valid()
    ensures ReadFrames(src, |src.frames|).chunk == src.frames[src.cursor..]
    ensures ReadFrames(src, |src.frames|).after.cursor == |src.frames|
  {
  }
}
